=== FILE: README.md ===
# Console sign-in alert handler, modelled in Dafny

`index.js` is an AWS Lambda handler that a CloudWatch alarm on console
sign-ins triggers. When the event is a CloudWatch alarm event that carries an
`alarmArn`, the handler does the following:

1. It starts a CloudWatch Logs Insights query for the latest successful
   `ConsoleLogin` record in the CloudTrail log group.
2. It polls the query (`waitForQuery`) until the status is no longer
   `Running`.
3. It picks the first result row.
4. It reads the row's `@timestamp` and `@message` fields (`getFieldValue`).
5. It parses the message as JSON and fills in a fixed text template with six
   values. A value that is missing or falsy is shown as `N/A`.

A `null` event makes the test at line 13 throw, so nothing is published.
Any other event gets a fixed "not relevant" text. Whatever the text, the
handler then publishes it to SNS. After a successful publish it sets the
alarm named by the last `:`-separated segment of `alarmArn` back to `OK`
(`setAlarmStateToOK`). It answers with status code 200, or with 500 and
`Error: <message>` when the publish or the reading of the alarm name throws.

The project models this decision logic as pure functions over immutable data.
The outside world becomes an input:

- whether `startQuery` succeeded;
- the sequence of `getQueryResults` replies;
- the `JSON.parse` function;
- whether `publish` succeeded.

JavaScript values are a `Json` datatype. `undefined` is `None`.

The modules are:

- `Wrappers`: `Option` and `Result`.
- `Strings`: `split` and `join` with a one-character separator.
- `Js`: JavaScript values, truthiness, `.` and `?.` property reads with V8's
  `TypeError` messages, template-literal text, and `|| "N/A"`.
- `Fields`: result rows and `getFieldValue`.
- `Poller`: `waitForQuery`.
- `Summary`: the field reads on the parsed message, and the rendered template.
- `Alarm`: `setAlarmStateToOK`'s alarm name.
- `Handler`: `handler`.

Behaviour of the code worth noting, which the model keeps:

- The code waits before every `getQueryResults` call, so the replies
  `Running, Running, Complete` take three calls (`Poller.TwoRunningThenComplete`).
- The loop stops on any status other than `Running`. So a `Scheduled` reply
  ends it with "Query failed" (`Poller.TerminalStatusFails`).
- After a successful publish, the reset of the alarm runs for every event,
  including a not-relevant one.
  Without a string `alarmArn` it throws inside the publish `try`, so the
  invocation answers 500 even though the message was published
  (`Handler.MissingArnFailsAfterPublish`).
- The `|| "N/A"` defaults at lines 49-56 keep the values themselves; only the
  template at lines 59-68 converts them to text. A value that is an object
  with its own `toString` key cannot be converted. The template then throws
  "Cannot convert object to primitive value", and the outer `catch` publishes
  it as a query error (`Handler.UnprintableTypeIsQueryError`).
- The query window is 30 minutes (`60000 * 30` ms), not the 15 the comment
  beside it says. The window is not modelled (see below).

## Model

| member | source | states |
|---|---|---|
| `Fields.FirstMatch` | index.js:122 | `find` gives no match exactly when no cell has the name. Otherwise the match is a cell with that name and no earlier cell has it. |
| `Fields.GetFieldValue` | index.js:121-124 | The result is `null` exactly when no cell of the row has the field name. Otherwise it is the value of a cell with that name, and no earlier cell has the name. |
| `Fields.GetFieldValueIsTableLookup` | index.js:121-124 | The first-match search agrees with an independent reading of the row as a lookup table in which earlier cells shadow later ones. |
| `Fields.LaterCellsIgnored` | index.js:122 | Once a row holds the field, appending more cells (duplicates included) does not change the value found. |
| `Poller.WaitForQuery` | index.js:102-118 | The loop keeps going exactly while replies say `Running`, and stops at the first reply that does not. It returns that reply exactly when its status is `Complete`. A rejected call rethrows its message, and any other status throws "Query failed". The number of calls made is counted. |
| `Poller.LaterRepliesUnread` | index.js:107-111 | Once the loop has ended, replies that would follow are never requested and change nothing. |
| `Poller.RunningRepliesAddPolls` | index.js:107-111 | Each `Running` reply in front adds exactly one call and leaves the outcome unchanged. |
| `Poller.TerminalStatusFails` | index.js:111-117 | After any number of `Running` replies, a status other than `Running` or `Complete` (`Scheduled` included) throws "Query failed" on the call that saw it. |
| `Poller.TwoRunningThenComplete` | index.js:107-114 | Two `Running` replies, whatever partial rows they carry, and then `Complete` return the third reply after three calls. |
| `Poller.WaitErrorMessage` | index.js:109-116 | The message the loop throws: "Query failed" for a final status other than `Complete`, and the rejection's own message for a failed call. |
| `Strings.SplitJoin` | index.js:128 | Splitting at a separator undoes joining separator-free parts with it. |
| `Strings.LastPieceIsSuffix` | index.js:128 | The last piece of `split` is free of the separator and is a suffix of the text. It is either the whole text or follows a separator. |
| `Strings.Split` | index.js:128 | `split` gives at least one piece, no piece contains the separator, and joining the pieces with the separator gives the text back. |
| `Alarm.AlarmName` | index.js:128 | `split(":").pop()` gives a colon-free suffix of the ARN. That suffix is the whole ARN or is preceded by a colon, and it is the whole ARN when there is no colon. |
| `Alarm.AlarmNameIsLastSegment` | index.js:128 | Those properties determine the alarm name: any colon-free suffix that is the whole ARN or follows a colon equals it. |
| `Alarm.LoginAlarmName` | index.js:128 | A CloudWatch alarm ARN ending in `alarm:LoginAlarm` names the alarm `LoginAlarm`. |
| `Alarm.ResetTarget` | index.js:127-128 | A string `alarmArn` yields the alarm name. `undefined` or `null` throws "Cannot read properties of … (reading 'split')". Any other value throws "alarmArn.split is not a function". |
| `Js.Member` | index.js:50 | A `.` read throws exactly on `undefined` or `null`, and the `TypeError` names the property and which of the two it was. |
| `Js.Truthy` | index.js:13-56 | Truthiness, as tested by `&&`, `if` and the "N/A" defaults: false exactly for `undefined`, `null`, `false`, `0` and `""`. |
| `Js.OptionalMember` | index.js:53-56 | `?.` gives `undefined` on `undefined` or `null`, and otherwise the value at the one-key path. |
| `Js.ToText` | index.js:59-68 | Converting a value inside the template throws exactly when the value is an object with its own `toString` key or an array holding one at any depth, and the error is "Cannot convert object to primitive value". A string converts to itself, and any other object to "[object Object]". |
| `Js.ElementTexts` | index.js:59-68 | `Array.prototype.join` inside the template prints every element, with `null` as nothing, and fails exactly when some element cannot be converted. |
| `Js.TypeErrorMessage` | index.js:74-98 | The `error.message` published for each `TypeError`: "Cannot read properties of …" for a read on `undefined` or `null`, "<callee> is not a function" for a call of a non-function, and "Cannot convert object to primitive value" for a failed conversion. |
| `Js.OrNotAvailable` | index.js:49-68 | The "N/A" default followed by the template conversion throws exactly when the value is truthy and cannot be converted. Otherwise it gives "N/A" exactly when the value is falsy or its own text is "N/A", and a non-empty string stays itself. |
| `Summary.Extract` | index.js:49-68 | Fails exactly when `userIdentity` is `undefined` or `null` (with the error for reading `type`, which comes first), or when some truthy value found cannot be converted to text (with "Cannot convert object to primitive value"). Otherwise every shown value is the value found at its path, converted, or "N/A" for a falsy one. |
| `Summary.Read` | index.js:49-56 | The reads throw exactly when `userIdentity` is `undefined` or `null`, with the error for reading `type`. Otherwise they find the six values at their paths. |
| `Summary.Convert` | index.js:59-68 | The template succeeds exactly when every truthy value converts to text, fails otherwise with "Cannot convert object to primitive value", and on success shows each value or "N/A". |
| `Summary.RenderReadBack` | index.js:59-68 | The rendered template keeps every value: reading its labelled lines back gives the summary again, provided no value contains a line break. |
| `Summary.Render` | index.js:59-68 | The text starts with a line break, and when no value contains a line break its lines are exactly the template's ten lines. |
| `Summary.Lines` | index.js:59-68 | The template has ten lines: an empty first line, the indented heading, an indented blank line, the six indented labelled values in order, and the closing indentation. |
| `Summary.FullDocumentFillsEveryField` | index.js:49-56 | A message whose six fields are non-empty strings shows exactly those strings. |
| `Summary.MissingMfaDataIsNotAvailable` | index.js:53-56 | Without `additionalEventData` the optional chain throws no read error, and whenever the template succeeds both MFA values are "N/A". |
| `Summary.MissingIdentityThrows` | index.js:50 | A truthy message without `userIdentity` throws "Cannot read properties of undefined (reading 'type')". |
| `Summary.UnprintableValueThrows` | index.js:59-68 | When the reads succeed but one found value is an object with its own `toString` key, the summary fails with "Cannot convert object to primitive value". |
| `Handler.Relevance` | index.js:13 | The relevance test throws exactly on a `null` event. Otherwise it holds exactly for an `aws.cloudwatch` event with a truthy `alarmArn`. |
| `Handler.LogMessage` | index.js:37 | The parser is given "N/A" exactly when `@message` is missing, empty or itself "N/A". Otherwise it is given the first `@message` value. |
| `Handler.MessageText` | index.js:45-79 | Only the falsy-message outcome publishes an empty text. A parse error publishes "Error parsing log message: " followed by its reason, and a query error publishes "Error querying CloudWatch Logs: " followed by its reason. |
| `Handler.Summarize` | index.js:34-73 | Never "not relevant". The result is "no event" exactly when there are no rows. It is a parse error, with the parser's message, exactly when parsing the first row's message (or "N/A") fails. It is the empty message exactly when the parse gives a falsy value. Otherwise it is a query error carrying the `TypeError` message exactly when `Summary.Extract` fails, and the report `Summary.Extract` gives exactly when it succeeds. |
| `Handler.ClassifyMessageText` | index.js:34-80 | For every outcome whose report values contain no line break, the outcome can be recovered from the published message. |
| `Handler.MessagesDiffer` | index.js:34-80 | Different outcomes whose report values contain no line break publish different messages. |
| `Handler.Inquire` | index.js:26-77 | A failed `startQuery` reports its message. A throwing poll loop reports its error after the number of calls it made. A returning loop gives `Summarize` of its rows. The inquiry is unanswered only while every reply says `Running`. |
| `Handler.Deliver` | index.js:89-98 | Answers 200 exactly when `publish` succeeded and `alarmArn` is a string; then the body is the success text and the alarm is reset to `AlarmName(alarmArn)`. Otherwise it answers 500 with no reset, and the body is `Error: ` followed by the publish error or the `split` error. |
| `Handler.Handle` | index.js:9-98 | Throws exactly on a `null` event. It runs out of replies exactly when the event is relevant, `startQuery` succeeded and every reply says `Running`. The query runs exactly for a relevant event, and the "not relevant" outcome is chosen exactly otherwise. The published text is the outcome's message. The status is 200 exactly when `publish` succeeded and `alarmArn` is a string; then the body is the success text and the alarm reset is `AlarmName(alarmArn)`. Otherwise the status is 500 and the body is `Error: ` followed by the publish error or, after a successful publish, by the `split` error. |
| `Handler.IrrelevantEventSkipsQuery` | index.js:78-80 | A not-relevant event publishes "No relevant CloudWatch event received.", makes no query call, and does not depend on any query reply. |
| `Handler.MissingArnFailsAfterPublish` | index.js:89-98 | With no `alarmArn`, a successful publish is followed by the `split` error and a 500 response. |
| `Handler.EmptyResultsReportNoEvent` | index.js:34-73 | A completed query with no rows publishes "No relevant login event found.". |
| `Handler.MissingMessageIsParseError` | index.js:37-46 | A row with no or an empty `@message` hands "N/A" to the parser. Any parser that rejects texts no JSON text can start with fails on it, so the message is a parse error. |
| `Handler.QueryFailureIsReported` | index.js:74-77 | A failed `startQuery` or a throwing poll loop publishes "Error querying CloudWatch Logs: …". A failing status gives "… Query failed". |
| `Handler.MissingIdentityIsQueryError` | index.js:50 | A truthy message whose `userIdentity` is missing or `null` publishes the query-error prefix followed by the `TypeError` for reading `type` of `undefined` or `null` respectively. |
| `Handler.UnprintableTypeIsQueryError` | index.js:50-77 | Any truthy parsed message whose `userIdentity.type` is an object with its own `toString` key passes every read, and the template then throws. `Summarize` gives the query error "Cannot convert object to primitive value", and the published text is the query-error prefix followed by that message. |
| `Handler.ExampleInquiry` | index.js:26-73 | `Running, Running, Complete` with one sign-in row ends after three calls with the report of its timestamp, user type, address and ARN, and "N/A" for both MFA values. |
| `Handler.ExampleDelivery` | index.js:89-94 | For an alarm event with a full alarm ARN, a successful publish resets `LoginAlarm` and answers 200 with the success body. |
| `Handler.RelevantInvocation` | index.js:13-98 | A relevant event whose inquiry is answered publishes the outcome's message and ends with the delivery's reset and response. |

## Left out

- AWS SDK calls (`startQuery`, `getQueryResults`, `publish`, `setAlarmState`) are not performed. Their outcomes are inputs. `setAlarmState`'s own failure is caught and only logged, so it is not an input.
- The query parameters are not modelled: the log group, the time window taken from `Date.now()`, and the query string. The clock is not represented.
- The 2-second `setTimeout` before each poll is not modelled. Only the number of calls is counted.
- `Poller.WaitForQuery`: the loop has no bound. A finite reply sequence that says `Running` throughout ends in `StillPolling` rather than running for ever.
- `JSON.parse` is a function parameter, not a parser. The only property assumed of it (`Handler.RejectsImpossibleStarts`) is that it rejects any text whose first character cannot start a JSON text (section 2 of RFC 8259).
- Numbers are integers of at most 53 bits. Fractions, exponents and the floating-point text of `String(n)` are not modelled. The handler only ever prints the fields as text.
- `Js.Member`: reads only own properties of a parsed JSON object. Prototype-inherited properties are not modelled: none of the keys the handler reads from the parsed message with `.` or `?.` is defined by the prototype of a JSON value. The two inherited lookups that do matter are modelled where they happen: `split` on the ARN string by `Alarm.ResetTarget`, and the implicit `toString` of the template conversion by `Js.ToText`.
- JavaScript strings are sequences of UTF-16 code units, but Dafny strings are sequences of Unicode scalar values. A parsed value holding a lone surrogate (such as `"\uD800"` in `@message`) therefore cannot be represented, and `Fields.GetFieldValue`, `Summary.Extract` and `Alarm.AlarmName` say nothing about such text.
- `TypeError` messages follow V8's wording. Other engines word them differently.
- Logging with `console.log` and `console.error` is not modelled.
- An event is a JSON value. Events that hold functions or other non-JSON values are not represented.
- The SNS subject and topic ARN are constants passed straight through, and are not represented.

=== FILE: alarm.dfy ===
/** `setAlarmStateToOK`: the alarm name taken from the alarm ARN and the
    exception the split throws when there is no ARN string. The
    `setAlarmState` call itself catches its own failure and only logs it,
    so its outcome never reaches the handler and is not represented. */
module Alarm {
  import opened Wrappers
  import opened Js
  import Strings

  /** `arn.split(":").pop()`: the segment after the last colon, or the
      whole ARN when it has no colon. */
  function AlarmName(arn: string): (name: string)
    ensures Strings.Lacks(name, ':')
    ensures |name| <= |arn| && arn[|arn| - |name|..] == name
    ensures |name| == |arn| || arn[|arn| - |name| - 1] == ':'
    ensures Strings.Lacks(arn, ':') ==> name == arn
  {
    Strings.LastPieceIsSuffix(arn, ':');
    Strings.Last(Strings.Split(arn, ':'))
  }

  /** The properties of `AlarmName` pin it down: a colon-free suffix that is
      the whole ARN or follows a colon is the alarm name. */
  lemma AlarmNameIsLastSegment(arn: string, name: string)
    requires Strings.Lacks(name, ':')
    requires |name| <= |arn| && arn[|arn| - |name|..] == name
    requires |name| == |arn| || arn[|arn| - |name| - 1] == ':'
    ensures name == AlarmName(arn)
  {
    var a := AlarmName(arn);
    NoLongerSegment(arn, a, name);
    NoLongerSegment(arn, name, a);
    assert arn[|arn| - |name|..] == arn[|arn| - |a|..];
  }

  /** A colon-free suffix is no longer than a suffix that follows a colon. */
  lemma NoLongerSegment(arn: string, x: string, y: string)
    requires Strings.Lacks(x, ':') && |x| <= |arn| && arn[|arn| - |x|..] == x
    requires |y| <= |arn| && (|y| == |arn| || arn[|arn| - |y| - 1] == ':')
    ensures |x| <= |y|
  {
    assert forall j :: |arn| - |x| <= j < |arn| ==> arn[j] == x[j - (|arn| - |x|)];
  }

  /** A CloudWatch alarm ARN yields the alarm's name. */
  lemma LoginAlarmName()
    ensures AlarmName("arn:aws:cloudwatch:us-east-1:123456789012:alarm:LoginAlarm") == "LoginAlarm"
  {
    var arn := "arn:aws:cloudwatch:us-east-1:123456789012:alarm:LoginAlarm";
    assert arn[|arn| - 10..] == "LoginAlarm";
    assert arn[|arn| - 11] == ':';
    AlarmNameIsLastSegment(arn, "LoginAlarm");
  }

  /** The first line of `setAlarmStateToOK(alarmArn)`: the alarm name sent
      to `setAlarmState`, or the `TypeError` line 128 throws when `alarmArn`
      is not a string. */
  function ResetTarget(alarmArn: Value): (r: Result<string, TypeError>)
    ensures r.Success? <==> alarmArn.Some? && alarmArn.value.JStr?
    ensures r.Success? ==> r.value == AlarmName(alarmArn.value.s)
    ensures Nullish(alarmArn) ==> r == Failure(CannotRead("split", alarmArn == Some(JNull)))
    ensures !Nullish(alarmArn) && r.Failure? ==> r == Failure(NotAFunction("alarmArn.split"))
  {
    match alarmArn
    case Some(JStr(arn)) => Success(AlarmName(arn))
    case _ =>
      if Nullish(alarmArn) then Failure(CannotRead("split", alarmArn == Some(JNull)))
      else Failure(NotAFunction("alarmArn.split"))
  }
}

=== FILE: fields.dfy ===
/** Result rows of a CloudWatch Logs Insights query and the by-name field
    lookup the handler performs on them (`getFieldValue`). */
module Fields {
  import opened Wrappers

  /** One `{field, value}` entry of a result row. */
  datatype Cell = Cell(field: string, value: string)

  /** A result row: its cells in the order the service returned them. */
  type Row = seq<Cell>

  /** No cell of `row` is named `name`. */
  predicate Absent(row: Row, name: string)
  {
    forall i :: 0 <= i < |row| ==> row[i].field != name
  }

  /** `row.find(item => item.field === name)`, as a position: the first cell
      named `name`, or `None` when there is none. */
  function FirstMatch(row: Row, name: string): (k: Option<nat>)
    ensures k.None? <==> Absent(row, name)
    ensures k.Some? ==> k.value < |row| && row[k.value].field == name && Absent(row[..k.value], name)
  {
    if |row| == 0 then None
    else if row[0].field == name then Some(0)
    else
      var k := FirstMatch(row[1..], name);
      if k.None? then None
      else
        assert row[..k.value + 1] == [row[0]] + row[1..][..k.value];
        Some(k.value + 1)
  }

  /** `getFieldValue(row, name)`: the value of the first cell named `name`,
      or `null` (here `None`) when no cell has that name. */
  function GetFieldValue(row: Row, name: string): (r: Option<string>)
    ensures r.None? <==> Absent(row, name)
    ensures r.Some? ==> exists i :: 0 <= i < |row| && row[i] == Cell(name, r.value) && Absent(row[..i], name)
  {
    var k := FirstMatch(row, name);
    if k.None? then None else Some(row[k.value].value)
  }

  /** The row read as a lookup table in which an earlier cell shadows any
      later cell with the same name. */
  function Table(row: Row): map<string, string>
  {
    if |row| == 0 then map[] else Table(row[1..])[row[0].field := row[0].value]
  }

  /** The linear first-match search agrees with the table lookup. */
  lemma {:induction false} GetFieldValueIsTableLookup(row: Row, name: string)
    ensures GetFieldValue(row, name) == (if name in Table(row) then Some(Table(row)[name]) else None)
  {
    if |row| > 0 && row[0].field != name {
      GetFieldValueIsTableLookup(row[1..], name);
      assert FirstMatch(row, name) == (var k := FirstMatch(row[1..], name); if k.None? then None else Some(k.value + 1));
    }
  }

  /** Cells after the first match never change the result: later duplicates
      are ignored. */
  lemma LaterCellsIgnored(row: Row, more: Row, name: string)
    requires !Absent(row, name)
    ensures GetFieldValue(row + more, name) == GetFieldValue(row, name)
  {
    FirstMatchOfPrefix(row, more, name);
  }

  lemma {:induction false} FirstMatchOfPrefix(row: Row, more: Row, name: string)
    requires !Absent(row, name)
    ensures FirstMatch(row + more, name) == FirstMatch(row, name)
    ensures FirstMatch(row, name).Some? && FirstMatch(row, name).value < |row|
  {
    if row[0].field != name {
      var i :| 0 <= i < |row| && row[i].field == name;
      assert row[1..][i - 1] == row[i];
      assert (row + more)[1..] == row[1..] + more;
      FirstMatchOfPrefix(row[1..], more, name);
    }
  }
}

=== FILE: handler.dfy ===
/** The Lambda `handler`: decide whether the event is a CloudWatch alarm,
    query CloudTrail logs for the latest console sign-in, choose exactly one
    notification text, publish it, reset the alarm and report a status code.
    The services are inputs: whether `startQuery` succeeded, the sequence of
    `getQueryResults` outcomes, the `JSON.parse` function, and whether the
    SNS `publish` succeeded. */
module Handler {
  import opened Wrappers
  import opened Js
  import Fields
  import Poller
  import Summary
  import Alarm
  import Strings

  /** A service call that either resolves or rejects with a message. */
  datatype Call = Succeeded | Failed(message: string)

  /** What `JSON.parse` does with a text. */
  datatype ParseResult = Parsed(doc: Json) | SyntaxError(message: string)

  /** The replies of the outside world for one invocation. */
  datatype Services = Services(startQuery: Call, polls: seq<Poller.Poll>, parse: string -> ParseResult, publish: Call)

  /** The one case the handler's message text is chosen for. */
  datatype Outcome =
    | NotRelevant                    // not a CloudWatch alarm event
    | NoEvent                        // the query found no sign-in
    | ParseError(reason: string)     // `@message` is not JSON
    | QueryError(reason: string)     // anything thrown in the outer `try`
    | Report(summary: Summary.LoginSummary)
    | FalsyMessage                   // `@message` parsed to a falsy value

  const NotRelevantText: string := "No relevant CloudWatch event received."
  const NoEventText: string := "No relevant login event found."
  const ParsePrefix: string := "Error parsing log message: "
  const QueryPrefix: string := "Error querying CloudWatch Logs: "

  /** The `message` published for each outcome. */
  function MessageText(o: Outcome): (text: string)
    ensures text == "" <==> o == FalsyMessage
    ensures o.ParseError? ==> Strings.StartsWith(text, ParsePrefix) && text[|ParsePrefix|..] == o.reason
    ensures o.QueryError? ==> Strings.StartsWith(text, QueryPrefix) && text[|QueryPrefix|..] == o.reason
  {
    Strings.StartsWithConcat(ParsePrefix, if o.ParseError? then o.reason else "");
    Strings.StartsWithConcat(QueryPrefix, if o.QueryError? then o.reason else "");
    match o
    case NotRelevant => NotRelevantText
    case NoEvent => NoEventText
    case ParseError(reason) => ParsePrefix + reason
    case QueryError(reason) => QueryPrefix + reason
    case Report(s) => Summary.Render(s)
    case FalsyMessage => ""
  }

  /** Recovers the outcome from a published message. */
  function Classify(text: string): Option<Outcome>
  {
    if text == "" then Some(FalsyMessage)
    else if text == NotRelevantText then Some(NotRelevant)
    else if text == NoEventText then Some(NoEvent)
    else if Strings.StartsWith(text, ParsePrefix) then Some(ParseError(text[|ParsePrefix|..]))
    else if Strings.StartsWith(text, QueryPrefix) then Some(QueryError(text[|QueryPrefix|..]))
    else
      match Summary.ReadBack(text)
      case Some(s) => Some(Report(s))
      case None => None
  }

  /** An outcome whose report values are single lines. */
  predicate Readable(o: Outcome)
  {
    o.Report? ==> Summary.SingleLine(o.summary)
  }

  /** The message text tells which outcome was chosen. */
  lemma ClassifyMessageText(o: Outcome)
    requires Readable(o)
    ensures Classify(MessageText(o)) == Some(o)
  {
    var text := MessageText(o);
    match o {
      case ParseError(reason) =>
        assert text[..|ParsePrefix|] == ParsePrefix;
        assert text[0] == 'E';
        assert text[|ParsePrefix|..] == reason;
      case QueryError(reason) =>
        assert text[..|QueryPrefix|] == QueryPrefix;
        assert text[0] == 'E' && text[6] == 'q' && ParsePrefix[6] == 'p';
        assert text[|QueryPrefix|..] == reason;
      case Report(s) =>
        var ls := Summary.Lines(s);
        assert text == ls[0] + ['\n'] + Strings.Join(ls[1..], '\n');
        assert text[0] == '\n';
        assert !Strings.StartsWith(text, ParsePrefix) by { assert ParsePrefix[0] == 'E'; }
        assert !Strings.StartsWith(text, QueryPrefix) by { assert QueryPrefix[0] == 'E'; }
        Summary.RenderReadBack(s);
      case _ =>
    }
  }

  /** Different readable outcomes publish different messages. */
  lemma MessagesDiffer(o1: Outcome, o2: Outcome)
    requires Readable(o1) && Readable(o2) && o1 != o2
    ensures MessageText(o1) != MessageText(o2)
  {
    ClassifyMessageText(o1);
    ClassifyMessageText(o2);
  }

  /** The event is a CloudWatch alarm event carrying a truthy `alarmArn`. */
  predicate IsRelevant(event: Json)
  {
    && event.JObj?
    && "source" in event.props && event.props["source"] == JStr("aws.cloudwatch")
    && "alarmArn" in event.props && Truthy(Some(event.props["alarmArn"]))
  }

  /** Line 13: `event.source === "aws.cloudwatch" && event.alarmArn`. */
  function Relevance(event: Json): (r: Result<bool, TypeError>)
    ensures r.Failure? <==> event == JNull
    ensures r.Failure? ==> r.error == CannotRead("source", true)
    ensures r.Success? ==> (r.value <==> IsRelevant(event))
  {
    var source :- Member(Some(event), "source");
    if source != Some(JStr("aws.cloudwatch")) then Success(false)
    else Success(Truthy(Member(Some(event), "alarmArn").value))
  }

  /** The text `JSON.parse` is given: the row's first `@message` value, or
      "N/A" when there is none or it is empty. */
  function LogMessage(row: Fields.Row): (text: string)
    ensures text == NotAvailable <==> (|| Fields.GetFieldValue(row, "@message") == None
                                      || Fields.GetFieldValue(row, "@message") == Some("")
                                      || Fields.GetFieldValue(row, "@message") == Some(NotAvailable))
    ensures text != NotAvailable ==> Fields.GetFieldValue(row, "@message") == Some(text)
  {
    match Fields.GetFieldValue(row, "@message")
    case Some(m) => if m != "" then m else NotAvailable
    case None => NotAvailable
  }

  /** The characters a JSON text can start with: whitespace or the first
      character of a value (section 2 of RFC 8259). */
  predicate CanStartJson(c: char)
  {
    c in " \t\n\r{[\"-0123456789tfn"
  }

  /** `parse` behaves as `JSON.parse` at least in rejecting every text that
      cannot start a JSON text. */
  ghost predicate RejectsImpossibleStarts(parse: string -> ParseResult)
  {
    forall text :: (|text| == 0 || !CanStartJson(text[0])) ==> parse(text).SyntaxError?
  }

  /** The first row's message parsed to a truthy value, so the summary
      reads run. */
  predicate ReadsRun(results: seq<Fields.Row>, parse: string -> ParseResult)
  {
    |results| > 0 && parse(LogMessage(results[0])).Parsed? && Truthy(Some(parse(LogMessage(results[0])).doc))
  }

  /** Lines 34-73: the outcome chosen from the query's result rows, a
      `TypeError` of the summary already caught by the outer `catch`
      (lines 74-77). */
  function Summarize(results: seq<Fields.Row>, parse: string -> ParseResult): (o: Outcome)
    ensures o != NotRelevant
    ensures o == NoEvent <==> |results| == 0
    ensures o.ParseError? <==> |results| > 0 && parse(LogMessage(results[0])).SyntaxError?
    ensures o.ParseError? ==> o.reason == parse(LogMessage(results[0])).message
    ensures o == FalsyMessage <==> |results| > 0 && parse(LogMessage(results[0])).Parsed?
                                     && !Truthy(Some(parse(LogMessage(results[0])).doc))
    ensures o.QueryError? <==> ReadsRun(results, parse) && Summary.Extract(results[0], parse(LogMessage(results[0])).doc).Failure?
    ensures o.QueryError? ==> o.reason == TypeErrorMessage(Summary.Extract(results[0], parse(LogMessage(results[0])).doc).error)
    ensures o.Report? <==> ReadsRun(results, parse) && Summary.Extract(results[0], parse(LogMessage(results[0])).doc).Success?
    ensures o.Report? ==> Summary.Extract(results[0], parse(LogMessage(results[0])).doc) == Success(o.summary)
  {
    var loginEvent := if |results| > 0 then Some(results[0]) else None;
    if loginEvent.None? then NoEvent
    else
      var row := loginEvent.value;
      var logMessage := LogMessage(row);
      match parse(logMessage)
      case SyntaxError(m) => ParseError(m)
      case Parsed(doc) =>
        if !Truthy(Some(doc)) then FalsyMessage
        else
          match Summary.Extract(row, doc)
          case Failure(e) => QueryError(TypeErrorMessage(e))
          case Success(s) => Report(s)
  }

  /** What the outer `try` (lines 26-77) ends with: an outcome and the number
      of `getQueryResults` calls made, or no answer yet when every supplied
      reply said `Running`. */
  datatype Inquiry = Answered(outcome: Outcome, polls: nat) | Unanswered

  function Inquire(svc: Services): (q: Inquiry)
    ensures q.Unanswered? <==> svc.startQuery.Succeeded? && Poller.WaitForQuery(svc.polls).StillPolling?
    ensures q.Answered? ==> q.outcome != NotRelevant
    ensures q.Answered? && svc.startQuery.Failed? ==> q.polls == 0 && q.outcome == QueryError(svc.startQuery.message)
    ensures q.Answered? && svc.startQuery.Succeeded? ==>
              && q.polls == Poller.WaitForQuery(svc.polls).polls
              && (Poller.WaitForQuery(svc.polls).Threw? ==>
                    q.outcome == QueryError(Poller.WaitErrorMessage(Poller.WaitForQuery(svc.polls).error)))
              && (Poller.WaitForQuery(svc.polls).Returned? ==>
                    q.outcome == Summarize(Poller.WaitForQuery(svc.polls).reply.results, svc.parse))
  {
    match svc.startQuery
    case Failed(m) => Answered(QueryError(m), 0)
    case Succeeded =>
      match Poller.WaitForQuery(svc.polls)
      case StillPolling => Unanswered
      case Threw(e, n) => Answered(QueryError(Poller.WaitErrorMessage(e)), n)
      case Returned(reply, n) => Answered(Summarize(reply.results, svc.parse), n)
  }

  /** The value `handler` resolves with. */
  datatype Response = Response(statusCode: int, body: string)

  /** One invocation: the outcome, whether `startQuery` was called, how many
      `getQueryResults` calls were made, the SNS message, the alarm name
      passed to `setAlarmState` (if it was called) and the response; or the
      exception that rejects the handler's promise; or no end within the
      supplied replies. */
  datatype Invocation =
    | Completed(outcome: Outcome, queried: bool, polls: nat, notification: string,
                resetAlarm: Option<string>, response: Response)
    | Threw(error: TypeError)
    | StillPolling

  /** The event's `alarmArn`, `undefined` when it has none. */
  function ArnValue(event: Json): Value
  {
    if event.JObj? && "alarmArn" in event.props then Some(event.props["alarmArn"]) else None
  }

  /** The event's `alarmArn` when it is a string. */
  function ArnString(event: Json): Option<string>
  {
    match ArnValue(event)
    case Some(JStr(arn)) => Some(arn)
    case _ => None
  }

  /** The body of a successful response. */
  const SentBody: string := "Message sent to SNS topic successfully"

  /** Lines 82-98: publish, then reset the alarm, inside one `try`. */
  function Deliver(event: Json, publish: Call): (r: (Option<string>, Response))
    requires event != JNull
    ensures r.1.statusCode == 200 <==> publish.Succeeded? && ArnString(event).Some?
    ensures r.1.statusCode == 200 ==> r.0 == Some(Alarm.AlarmName(ArnString(event).value)) && r.1.body == SentBody
    ensures r.1.statusCode != 200 ==> r.0 == None && r.1.statusCode == 500
    ensures publish.Failed? ==> r.1.body == "Error: " + publish.message
    ensures publish.Succeeded? && ArnString(event).None? ==>
              r.1.body == "Error: " + TypeErrorMessage(Alarm.ResetTarget(ArnValue(event)).error)
  {
    assert Member(Some(event), "alarmArn").value == ArnValue(event);
    match publish
    case Failed(m) => (None, Response(500, "Error: " + m))
    case Succeeded =>
      match Alarm.ResetTarget(Member(Some(event), "alarmArn").value)
      case Failure(e) => (None, Response(500, "Error: " + TypeErrorMessage(e)))
      case Success(name) => (Some(name), Response(200, SentBody))
  }

  /** `handler(event)`. */
  function Handle(event: Json, svc: Services): (inv: Invocation)
    ensures inv.Threw? <==> event == JNull
    ensures inv.Threw? ==> inv.error == CannotRead("source", true)
    ensures inv.StillPolling? <==> && event != JNull && IsRelevant(event) && svc.startQuery.Succeeded?
                                   && forall i :: 0 <= i < |svc.polls| ==> Poller.KeepsPolling(svc.polls[i])
    ensures inv.Completed? ==> (inv.queried <==> IsRelevant(event))
    ensures inv.Completed? ==> (inv.outcome == NotRelevant <==> !IsRelevant(event))
    ensures inv.Completed? && !inv.queried ==> inv.polls == 0
    ensures inv.Completed? ==> inv.notification == MessageText(inv.outcome)
    ensures inv.Completed? ==> inv.response.statusCode in {200, 500}
    ensures inv.Completed? ==> (inv.response.statusCode == 200 <==> svc.publish.Succeeded? && ArnString(event).Some?)
    ensures inv.Completed? ==> (inv.resetAlarm.Some? <==> inv.response.statusCode == 200)
    ensures inv.Completed? && inv.resetAlarm.Some? ==> inv.resetAlarm.value == Alarm.AlarmName(ArnString(event).value)
    ensures inv.Completed? && inv.response.statusCode == 200 ==> inv.response.body == SentBody
    ensures inv.Completed? && inv.response.statusCode == 500 ==> Strings.StartsWith(inv.response.body, "Error: ")
    ensures inv.Completed? && svc.publish.Failed? ==> inv.response.body == "Error: " + svc.publish.message
    ensures inv.Completed? && svc.publish.Succeeded? && ArnString(event).None? ==>
              inv.response.body == "Error: " + TypeErrorMessage(Alarm.ResetTarget(ArnValue(event)).error)
  {
    match Relevance(event)
    case Failure(e) => Threw(e)
    case Success(relevant) =>
      var inquiry := if relevant then Inquire(svc) else Answered(NotRelevant, 0);
      if inquiry.Unanswered? then StillPolling
      else
        var message := MessageText(inquiry.outcome);
        var (reset, response) := Deliver(event, svc.publish);
        Completed(inquiry.outcome, relevant, inquiry.polls, message, reset, response)
  }

  /** An event that is not a CloudWatch alarm with an ARN gets the fixed
      "no relevant event" message, and no query reply is ever consulted. */
  lemma IrrelevantEventSkipsQuery(event: Json, svc: Services, other: Services)
    requires event != JNull && !IsRelevant(event)
    requires other.publish == svc.publish
    ensures Handle(event, svc) == Handle(event, other)
    ensures Handle(event, svc).Completed?
    ensures !Handle(event, svc).queried && Handle(event, svc).polls == 0
    ensures Handle(event, svc).notification == "No relevant CloudWatch event received."
  {
  }

  /** Without an `alarmArn` the reset at line 128 throws after a successful
      publish, so even the "no relevant event" invocation answers 500. */
  lemma MissingArnFailsAfterPublish(props: map<string, Json>, svc: Services)
    requires "alarmArn" !in props && svc.publish.Succeeded?
    ensures Handle(JObj(props), svc).Completed?
    ensures Handle(JObj(props), svc).response == Response(500, "Error: " + TypeErrorMessage(CannotRead("split", false)))
  {
    var event := JObj(props);
    assert Member(Some(event), "alarmArn") == Success(None);
    assert Alarm.ResetTarget(None) == Failure(CannotRead("split", false));
  }

  /** A query whose results are empty reports "No relevant login event found.". */
  lemma EmptyResultsReportNoEvent(event: Json, svc: Services)
    requires IsRelevant(event) && svc.startQuery.Succeeded?
    requires Poller.WaitForQuery(svc.polls).Returned? && Poller.WaitForQuery(svc.polls).reply.results == []
    ensures Handle(event, svc).Completed?
    ensures Handle(event, svc).notification == "No relevant login event found."
    ensures Handle(event, svc).polls == Poller.WaitForQuery(svc.polls).polls
  {
  }

  /** A row with no (or an empty) `@message` hands "N/A" to `JSON.parse`,
      which is not JSON, so the message is a parse error. */
  lemma MissingMessageIsParseError(row: Fields.Row, more: seq<Fields.Row>, parse: string -> ParseResult)
    requires RejectsImpossibleStarts(parse)
    requires Fields.GetFieldValue(row, "@message") in {None, Some("")}
    ensures Summarize([row] + more, parse).ParseError?
    ensures Strings.StartsWith(MessageText(Summarize([row] + more, parse)), "Error parsing log message: ")
  {
    NotAvailableIsNotJson(parse);
    assert LogMessage(row) == NotAvailable;
    var results := [row] + more;
    assert results[0] == row;
    var o := Summarize(results, parse);
    assert o.ParseError?;
  }

  /** "N/A" starts with a character no JSON text starts with. */
  lemma NotAvailableIsNotJson(parse: string -> ParseResult)
    requires RejectsImpossibleStarts(parse)
    ensures parse(NotAvailable).SyntaxError?
  {
    assert NotAvailable[0] == 'N' && !CanStartJson('N');
  }

  /** A query that fails, in whichever way, is reported through the outer
      `catch` with the error's message. */
  lemma QueryFailureIsReported(event: Json, svc: Services)
    requires IsRelevant(event)
    requires svc.startQuery.Failed? || Poller.WaitForQuery(svc.polls).Threw?
    ensures Handle(event, svc).Completed?
    ensures Strings.StartsWith(Handle(event, svc).notification, "Error querying CloudWatch Logs: ")
    ensures svc.startQuery.Succeeded? && Poller.WaitForQuery(svc.polls).error == Poller.QueryFailed ==>
              Handle(event, svc).notification == QueryPrefix + "Query failed"
  {
    var inv := Handle(event, svc);
    assert inv.outcome.QueryError?;
  }

  /** A parsed, truthy message whose `userIdentity` is missing or `null`
      throws inside the outer `try`; its `catch` turns the `TypeError` into
      the query-error message. */
  lemma MissingIdentityIsQueryError(event: Json, svc: Services)
    requires IsRelevant(event) && svc.startQuery.Succeeded?
    requires Poller.WaitForQuery(svc.polls).Returned?
    requires var results := Poller.WaitForQuery(svc.polls).reply.results;
             && ReadsRun(results, svc.parse)
             && Nullish(At(Some(svc.parse(LogMessage(results[0])).doc), ["userIdentity"]))
    ensures Handle(event, svc).Completed?
    ensures var doc := svc.parse(LogMessage(Poller.WaitForQuery(svc.polls).reply.results[0])).doc;
            Handle(event, svc).notification
              == QueryPrefix + TypeErrorMessage(CannotRead("type", At(Some(doc), ["userIdentity"]) == Some(JNull)))
  {
    var results := Poller.WaitForQuery(svc.polls).reply.results;
    var doc := svc.parse(LogMessage(results[0])).doc;
    var o := Summarize(results, svc.parse);
    assert o == QueryError(TypeErrorMessage(CannotRead("type", At(Some(doc), ["userIdentity"]) == Some(JNull))));
    assert Handle(event, svc).outcome == o;
  }

  /** A message whose user type is an object with its own `toString` key
      passes every read, then makes the template throw; the outer `catch`
      publishes that `TypeError` as a query error. */
  lemma UnprintableTypeIsQueryError(row: Fields.Row, more: seq<Fields.Row>, parse: string -> ParseResult, doc: Json)
    requires parse(LogMessage(row)) == Parsed(doc) && Truthy(Some(doc))
    requires var t := At(Some(doc), ["userIdentity", "type"]);
             t.Some? && t.value.JObj? && "toString" in t.value.props
    ensures Summarize([row] + more, parse) == QueryError(TypeErrorMessage(NoPrimitive))
    ensures MessageText(Summarize([row] + more, parse)) == QueryPrefix + TypeErrorMessage(NoPrimitive)
  {
    assert ["userIdentity", "type"][1..] == ["type"];
    assert doc.JObj? && "userIdentity" in doc.props;
    assert At(Some(doc), ["userIdentity"]) == Some(doc.props["userIdentity"]);
    Summary.UnprintableValueThrows(row, doc, 1);
    assert ([row] + more)[0] == row;
  }

  const ExampleArn: string := "arn:aws:cloudwatch:us-east-1:123456789012:alarm:LoginAlarm"

  const ExampleEvent: Json := JObj(map["source" := JStr("aws.cloudwatch"), "alarmArn" := JStr(ExampleArn)])

  const ExampleMessage: string :=
    "{\"userIdentity\":{\"type\":\"IAMUser\",\"arn\":\"arn:aws:iam::123:user/alice\"},\"sourceIPAddress\":\"1.2.3.4\"}"

  const ExampleRow: Fields.Row :=
    [Fields.Cell("@timestamp", "2024-01-01T00:00:00Z"), Fields.Cell("@message", ExampleMessage)]

  const ExampleDocument: Json :=
    JObj(map["userIdentity" := JObj(map["type" := JStr("IAMUser"), "arn" := JStr("arn:aws:iam::123:user/alice")]),
             "sourceIPAddress" := JStr("1.2.3.4")])

  const ExampleSummary: Summary.LoginSummary :=
    Summary.LoginSummary("2024-01-01T00:00:00Z", "IAMUser", "1.2.3.4", "arn:aws:iam::123:user/alice", "N/A", "N/A")

  /** The example event is relevant and its reset goes to `LoginAlarm`. */
  lemma ExampleDelivery(publish: Call)
    requires publish.Succeeded?
    ensures ExampleEvent != JNull && IsRelevant(ExampleEvent)
    ensures Deliver(ExampleEvent, publish) == (Some("LoginAlarm"), Response(200, SentBody))
  {
    var target := Alarm.ResetTarget(Member(Some(ExampleEvent), "alarmArn").value);
    ExampleReset();
    assert Deliver(ExampleEvent, publish) == (Some(target.value), Response(200, SentBody));
  }

  lemma ExampleReset()
    ensures Alarm.ResetTarget(Member(Some(ExampleEvent), "alarmArn").value) == Success("LoginAlarm")
  {
    assert Member(Some(ExampleEvent), "alarmArn") == Success(Some(JStr(ExampleArn)));
    Alarm.LoginAlarmName();
  }

  /** Polling the example replies ends with the example report. */
  lemma ExampleInquiry(svc: Services)
    requires svc.startQuery.Succeeded?
    requires svc.parse(ExampleMessage) == Parsed(ExampleDocument)
    requires svc.polls == [Poller.Answered(Poller.Reply(Poller.Running, [])),
                           Poller.Answered(Poller.Reply(Poller.Running, [])),
                           Poller.Answered(Poller.Reply(Poller.Complete, [ExampleRow]))]
    ensures Inquire(svc) == Answered(Report(ExampleSummary), 3)
  {
    Poller.TwoRunningThenComplete(Poller.Reply(Poller.Running, []), Poller.Reply(Poller.Running, []), Poller.Reply(Poller.Complete, [ExampleRow]));
    ExampleReport(svc.parse);
  }

  /** The example row summarises to its timestamp, identity and address. */
  lemma ExampleReport(parse: string -> ParseResult)
    requires parse(ExampleMessage) == Parsed(ExampleDocument)
    ensures Summarize([ExampleRow], parse) == Report(ExampleSummary)
  {
    ExampleLookups();
    ExampleExtract();
    assert Truthy(Some(ExampleDocument));
  }

  lemma ExampleExtract()
    ensures Truthy(Some(ExampleDocument))
    ensures Summary.Extract(ExampleRow, ExampleDocument) == Success(ExampleSummary)
  {
    ExampleLookups();
    ExamplePaths();
    var r := Summary.Extract(ExampleRow, ExampleDocument);
    assert r.Success?;
    assert r.value.time == "2024-01-01T00:00:00Z";
    assert r.value.user == "IAMUser";
    assert r.value.sourceIp == "1.2.3.4";
    assert r.value.userArn == "arn:aws:iam::123:user/alice";
    assert r.value.mfaUsed == NotAvailable && r.value.mfaType == NotAvailable;
  }

  /** The values at the six paths of the example document. */
  lemma ExamplePaths()
    ensures At(Some(ExampleDocument), ["userIdentity"]) == Some(JObj(map["type" := JStr("IAMUser"), "arn" := JStr("arn:aws:iam::123:user/alice")]))
    ensures At(Some(ExampleDocument), ["userIdentity", "type"]) == Some(JStr("IAMUser"))
    ensures At(Some(ExampleDocument), ["userIdentity", "arn"]) == Some(JStr("arn:aws:iam::123:user/alice"))
    ensures At(Some(ExampleDocument), ["sourceIPAddress"]) == Some(JStr("1.2.3.4"))
    ensures At(Some(ExampleDocument), ["additionalEventData", "MFAUsed"]) == None
    ensures At(Some(ExampleDocument), ["additionalEventData", "MFAIdentifier"]) == None
  {
  }

  /** The example row's two fields. */
  lemma ExampleLookups()
    ensures Fields.GetFieldValue(ExampleRow, "@timestamp") == Some("2024-01-01T00:00:00Z")
    ensures LogMessage(ExampleRow) == ExampleMessage
  {
    var row := ExampleRow;
    assert row[1..] == [Fields.Cell("@message", ExampleMessage)];
    assert Fields.FirstMatch(row[1..], "@message") == Some(0);
    assert Fields.FirstMatch(row, "@message") == Some(1);
  }

  /** A relevant event whose inquiry ends is published and delivered. */
  lemma RelevantInvocation(event: Json, svc: Services, o: Outcome, n: nat, reset: Option<string>, response: Response)
    requires event != JNull && IsRelevant(event)
    requires Inquire(svc) == Answered(o, n)
    requires Deliver(event, svc.publish) == (reset, response)
    ensures Handle(event, svc) == Completed(o, true, n, MessageText(o), reset, response)
  {
  }
}

=== FILE: js.dfy ===
/** The slice of JavaScript value semantics the handler relies on: values
    produced by `JSON.parse`, `undefined`, truthiness (what `||` and `if`
    test), property reads with `.` and `?.`, and conversion to text inside a
    template literal. */
module Js {
  import opened Wrappers
  import Strings

  /** The largest integer a JavaScript number holds exactly. */
  const MaxSafeInteger: int := 0x1F_FFFF_FFFF_FFFF

  type SafeInt = n: int | -MaxSafeInteger <= n <= MaxSafeInteger

  /** A value `JSON.parse` can produce. Objects are the parsed property maps
      (a repeated key keeps its last value, so a map is exact). */
  datatype Json =
    | JNull
    | JBool(b: bool)
    | JNum(n: SafeInt)
    | JStr(s: string)
    | JArr(items: seq<Json>)
    | JObj(props: map<string, Json>)

  /** A JavaScript value reached from parsed JSON: `None` is `undefined`. */
  type Value = Option<Json>

  /** `undefined` or `null`: the values a property read throws on. */
  predicate Nullish(v: Value)
  {
    v == None || v == Some(JNull)
  }

  /** JavaScript truthiness, as tested by `if (v)` and `v || d`. */
  predicate Truthy(v: Value)
    ensures !Truthy(v) <==> v in {None, Some(JNull), Some(JBool(false)), Some(JNum(0)), Some(JStr(""))}
  {
    match v
    case None => false
    case Some(JNull) => false
    case Some(JBool(b)) => b
    case Some(JNum(n)) => n != 0
    case Some(JStr(s)) => s != ""
    case Some(JArr(_)) => true
    case Some(JObj(_)) => true
  }

  /** The `TypeError`s the handler can raise. */
  datatype TypeError =
    | CannotRead(property: string, onNull: bool)   // `x.property` with `x` nullish
    | NotAFunction(callee: string)                  // `callee(...)` with `callee` not callable
    | NoPrimitive                                   // an object with no usable `toString` in `${...}`

  /** The `message` V8 gives each `TypeError`. */
  function TypeErrorMessage(e: TypeError): (m: string)
    ensures e.CannotRead? ==> Strings.StartsWith(m, "Cannot read properties of ")
    ensures e.NotAFunction? ==> |m| > |e.callee| && m[..|e.callee|] == e.callee
    ensures e.NoPrimitive? ==> m == "Cannot convert object to primitive value"
  {
    match e
    case CannotRead(p, onNull) =>
      Strings.StartsWithConcat("Cannot read properties of ", (if onNull then "null" else "undefined") + " (reading '" + p + "')");
      "Cannot read properties of " + (if onNull then "null" else "undefined") + " (reading '" + p + "')"
    case NotAFunction(callee) =>
      assert (callee + " is not a function")[..|callee|] == callee;
      callee + " is not a function"
    case NoPrimitive => "Cannot convert object to primitive value"
  }

  /** `v.key`: throws on a nullish `v`, otherwise the own property of an
      object or `undefined`. None of the keys the handler reads is defined
      by the prototype of a JSON value, so nothing is inherited. */
  function Member(v: Value, key: string): (r: Result<Value, TypeError>)
    ensures r.Failure? <==> Nullish(v)
    ensures r.Failure? ==> r.error == CannotRead(key, v == Some(JNull))
  {
    match v
    case None => Failure(CannotRead(key, false))
    case Some(JNull) => Failure(CannotRead(key, true))
    case Some(JObj(props)) => Success(if key in props then Some(props[key]) else None)
    case Some(_) => Success(None)
  }

  /** `v?.key`: `undefined` on a nullish `v`, otherwise `v.key`. */
  function OptionalMember(v: Value, key: string): (r: Value)
    ensures Nullish(v) ==> r == None
    ensures r == At(v, [key])
  {
    if Nullish(v) then None else Member(v, key).value
  }

  /** The value at a path of keys, `undefined` as soon as a link is missing
      or is not an object: a read that never throws. */
  function At(v: Value, path: seq<string>): Value
    decreases |path|
  {
    if |path| == 0 then v
    else if v.Some? && v.value.JObj? && path[0] in v.value.props then At(Some(v.value.props[path[0]]), path[1..])
    else None
  }

  /** The values `String(j)` succeeds on. A parsed object with its own
      `toString` key has a `toString` that is not callable and a `valueOf`
      that gives no primitive, so converting it throws; an array converts
      its elements, so it fails when one of them does. */
  predicate Printable(j: Json)
  {
    match j
    case JArr(items) => forall i :: 0 <= i < |items| ==> Printable(items[i])
    case JObj(props) => "toString" !in props
    case _ => true
  }

  /** `String(j)`, the text `${j}` inserts into a template literal, or the
      `TypeError` that conversion throws. For `null`, booleans and integers
      the body is the definition: their JavaScript text. */
  function ToText(j: Json): (r: Result<string, TypeError>)
    ensures r.Success? <==> Printable(j)
    ensures r.Failure? ==> r.error == NoPrimitive
    ensures j.JStr? ==> r == Success(j.s)
    ensures j.JObj? && r.Success? ==> r.value == "[object Object]"
    ensures j.JNum? ==> r.Success? && |r.value| > 0 && (r.value[0] == '-' <==> j.n < 0)
    decreases j, 1
  {
    match j
    case JNull => Success("null")
    case JBool(b) => Success(if b then "true" else "false")
    case JNum(n) => Success(if n < 0 then "-" + Strings.NatToDecimal(-n) else Strings.NatToDecimal(n))
    case JStr(s) => Success(s)
    case JArr(items) =>
      var texts :- ElementTexts(j, 0);
      Success(Strings.Join(texts, ','))
    case JObj(props) => if "toString" in props then Failure(NoPrimitive) else Success("[object Object]")
  }

  /** How `Array.prototype.join` prints the elements of `arr` from `from`
      on: `null` as nothing, everything else as `String` does. */
  function ElementTexts(arr: Json, from: nat): (r: Result<seq<string>, TypeError>)
    requires arr.JArr? && from <= |arr.items|
    ensures r.Success? <==> forall i :: from <= i < |arr.items| ==> Printable(arr.items[i])
    ensures r.Success? ==> |r.value| == |arr.items| - from
    ensures r.Failure? ==> r.error == NoPrimitive
    decreases arr, 0, |arr.items| - from
  {
    if from == |arr.items| then Success([])
    else
      var item := arr.items[from];
      var first :- if item == JNull then Success("") else ToText(item);
      var rest :- ElementTexts(arr, from + 1);
      Success([first] + rest)
  }

  /** The placeholder the summary prints for a missing value. */
  const NotAvailable: string := "N/A"

  /** `${v || "N/A"}`: the placeholder for a falsy value, otherwise the
      value's text, or the `TypeError` converting it throws. */
  function OrNotAvailable(v: Value): (r: Result<string, TypeError>)
    ensures r.Failure? <==> Truthy(v) && !Printable(v.value)
    ensures r.Failure? ==> r.error == NoPrimitive
    ensures r.Success? ==> (r.value == NotAvailable <==> !Truthy(v) || ToText(v.value) == Success(NotAvailable))
    ensures v.Some? && v.value.JStr? && v.value.s != "" ==> r == Success(v.value.s)
  {
    if Truthy(v) then ToText(v.value) else Success(NotAvailable)
  }
}

=== FILE: poller.dfy ===
/** The poll loop `waitForQuery`: after the query has been started, ask the
    service for its results once per wait interval until the status leaves
    `Running`. The service's replies are an input, one element per
    `getQueryResults` call; the 2-second wait before each call is not
    represented. */
module Poller {
  import Fields

  /** The statuses a Logs Insights query reports. */
  datatype Status = Scheduled | Running | Complete | Failed | Cancelled | Timeout | Unknown

  /** A `getQueryResults` response. */
  datatype Reply = Reply(status: Status, results: seq<Fields.Row>)

  /** One `getQueryResults` call: a response, or a rejected promise. */
  datatype Poll = Answered(reply: Reply) | Rejected(message: string)

  /** Why `waitForQuery` throws. */
  datatype WaitError = QueryFailed | ServiceError(message: string)

  /** How `waitForQuery` ends after `polls` calls; `StillPolling` when every
      supplied reply said `Running` (the loop has no bound of its own). */
  datatype Wait = Returned(reply: Reply, polls: nat) | Threw(error: WaitError, polls: nat) | StillPolling

  /** The loop condition: the poll answered and the status is `Running`. */
  predicate KeepsPolling(p: Poll)
  {
    p.Answered? && p.reply.status == Running
  }

  /** The `message` of the error `waitForQuery` throws. */
  function WaitErrorMessage(e: WaitError): (m: string)
    ensures e.QueryFailed? ==> m == "Query failed"
    ensures e.ServiceError? ==> m == e.message
  {
    match e
    case QueryFailed => "Query failed"
    case ServiceError(m) => m
  }

  /** `waitForQuery`: consumes at least one reply, stops at the first reply
      that is not `Running`, returns it when its status is `Complete` and
      throws otherwise. */
  function WaitForQuery(polls: seq<Poll>): (w: Wait)
    ensures w.StillPolling? <==> forall i :: 0 <= i < |polls| ==> KeepsPolling(polls[i])
    ensures !w.StillPolling? ==>
              && 1 <= w.polls <= |polls|
              && (forall i :: 0 <= i < w.polls - 1 ==> KeepsPolling(polls[i]))
              && !KeepsPolling(polls[w.polls - 1])
    ensures w.Returned? <==> !w.StillPolling? && polls[w.polls - 1].Answered? && polls[w.polls - 1].reply.status == Complete
    ensures w.Returned? ==> w.reply == polls[w.polls - 1].reply
    ensures w.Threw? ==> (w.error == QueryFailed <==> polls[w.polls - 1].Answered?)
    ensures w.Threw? && w.error.ServiceError? ==> polls[w.polls - 1] == Rejected(w.error.message)
  {
    if |polls| == 0 then StillPolling
    else
      match polls[0]
      case Rejected(m) => Threw(ServiceError(m), 1)
      case Answered(reply) =>
        if reply.status == Running then
          match WaitForQuery(polls[1..])
          case StillPolling => StillPolling
          case Returned(r, n) => Returned(r, n + 1)
          case Threw(e, n) => Threw(e, n + 1)
        else if reply.status == Complete then Returned(reply, 1)
        else Threw(QueryFailed, 1)
  }

  /** Replies after the one that ends the loop are never requested. */
  lemma {:induction false} LaterRepliesUnread(polls: seq<Poll>, more: seq<Poll>)
    requires !WaitForQuery(polls).StillPolling?
    ensures WaitForQuery(polls + more) == WaitForQuery(polls)
  {
    assert (polls + more)[0] == polls[0];
    if KeepsPolling(polls[0]) {
      assert (polls + more)[1..] == polls[1..] + more;
      LaterRepliesUnread(polls[1..], more);
    }
  }

  /** Each `Running` reply in front adds one call and changes nothing else. */
  lemma {:induction false} RunningRepliesAddPolls(polls: seq<Poll>, running: seq<Poll>)
    requires forall i :: 0 <= i < |running| ==> KeepsPolling(running[i])
    ensures WaitForQuery(running + polls) == match WaitForQuery(polls)
                                              case StillPolling => StillPolling
                                              case Returned(r, n) => Returned(r, n + |running|)
                                              case Threw(e, n) => Threw(e, n + |running|)
  {
    if |running| == 0 {
      assert running + polls == polls;
    } else {
      assert (running + polls)[0] == running[0];
      assert (running + polls)[1..] == running[1..] + polls;
      RunningRepliesAddPolls(polls, running[1..]);
    }
  }

  /** A status other than `Running` and `Complete` after any number of
      `Running` replies throws "Query failed" — including `Scheduled`, which
      ends the loop although the query has not run yet. */
  lemma TerminalStatusFails(running: seq<Poll>, status: Status, results: seq<Fields.Row>, more: seq<Poll>)
    requires forall i :: 0 <= i < |running| ==> KeepsPolling(running[i])
    requires status != Running && status != Complete
    ensures var w := WaitForQuery(running + [Answered(Reply(status, results))] + more);
            w == Threw(QueryFailed, |running| + 1) && WaitErrorMessage(w.error) == "Query failed"
  {
    var last := [Answered(Reply(status, results))];
    assert running + last + more == running + (last + more);
    RunningRepliesAddPolls(last + more, running);
  }

  /** Two `Running` replies, whatever partial rows they carry, and then
      `Complete`: the loop returns the third reply after three calls. */
  lemma TwoRunningThenComplete(first: Reply, second: Reply, reply: Reply)
    requires first.status == Running && second.status == Running
    requires reply.status == Complete
    ensures WaitForQuery([Answered(first), Answered(second), Answered(reply)]) == Returned(reply, 3)
  {
    var running := [Answered(first), Answered(second)];
    assert WaitForQuery([Answered(reply)]) == Returned(reply, 1);
    RunningRepliesAddPolls([Answered(reply)], running);
    assert running + [Answered(reply)] == [Answered(first), Answered(second), Answered(reply)];
  }
}

=== FILE: strings.dfy ===
/** Character-delimited splitting and joining of strings, as JavaScript's
    `String.prototype.split` with a one-character separator and
    `Array.prototype.join` do it. */
module Strings {

  /** No character of `s` is `c`. */
  predicate Lacks(s: string, c: char)
  {
    forall i :: 0 <= i < |s| ==> s[i] != c
  }

  /** No part contains the separator. */
  predicate Unseparated(parts: seq<string>, sep: char)
  {
    forall i :: 0 <= i < |parts| ==> Lacks(parts[i], sep)
  }

  /** `parts.join(sep)`: the parts with one separator between neighbours. */
  function Join(parts: seq<string>, sep: char): string
  {
    if |parts| == 0 then ""
    else if |parts| == 1 then parts[0]
    else parts[0] + [sep] + Join(parts[1..], sep)
  }

  /** `s.split(sep)`: the maximal separator-free pieces of `s`, in order.
      There is always at least one piece, possibly empty. */
  function Split(s: string, sep: char): (parts: seq<string>)
    ensures |parts| >= 1
    ensures Unseparated(parts, sep)
    ensures Join(parts, sep) == s
  {
    if |s| == 0 then [""]
    else
      var rest := Split(s[1..], sep);
      if s[0] == sep then
        assert Join([""] + rest, sep) == [sep] + Join(rest, sep);
        [""] + rest
      else
        JoinExtendsFirst(s[0], rest, sep);
        assert s == [s[0]] + s[1..];
        [[s[0]] + rest[0]] + rest[1..]
  }

  /** Prefixing the first part prefixes the joined text. */
  lemma JoinExtendsFirst(c: char, parts: seq<string>, sep: char)
    requires |parts| >= 1
    ensures Join([[c] + parts[0]] + parts[1..], sep) == [c] + Join(parts, sep)
  {
    var ps := [[c] + parts[0]] + parts[1..];
    assert ps[1..] == parts[1..];
  }

  /** A separator-free text is a single piece. */
  lemma {:induction false} SplitUnseparated(p: string, sep: char)
    requires Lacks(p, sep)
    ensures Split(p, sep) == [p]
  {
    if |p| > 0 {
      SplitUnseparated(p[1..], sep);
      assert [p[0]] + p[1..] == p;
    }
  }

  /** Splitting a separator-free piece followed by a separator and more text
      yields the piece and then the pieces of the rest. */
  lemma {:induction false} SplitAfterPiece(p: string, sep: char, t: string)
    requires Lacks(p, sep)
    ensures Split(p + [sep] + t, sep) == [p] + Split(t, sep)
  {
    var s := p + [sep] + t;
    if |p| == 0 {
      assert s == [sep] + t && s[1..] == t;
    } else {
      assert s[1..] == p[1..] + [sep] + t;
      SplitAfterPiece(p[1..], sep, t);
      assert s[0] == p[0] && [p[0]] + p[1..] == p;
    }
  }

  /** Joining separator-free parts and splitting again gives the parts back. */
  lemma {:induction false} SplitJoin(parts: seq<string>, sep: char)
    requires |parts| >= 1
    requires Unseparated(parts, sep)
    ensures Split(Join(parts, sep), sep) == parts
    decreases |parts|
  {
    if |parts| == 1 {
      SplitUnseparated(parts[0], sep);
    } else {
      assert Lacks(parts[0], sep);
      SplitJoin(parts[1..], sep);
      SplitAfterPiece(parts[0], sep, Join(parts[1..], sep));
      assert [parts[0]] + parts[1..] == parts;
    }
  }

  /** The last element of a non-empty sequence. */
  function Last<T>(xs: seq<T>): T
    requires |xs| > 0
  {
    xs[|xs| - 1]
  }

  /** Joining puts one separator between the last part and the rest. */
  lemma {:induction false} JoinLast(parts: seq<string>, sep: char)
    requires |parts| > 1
    ensures Join(parts, sep) == Join(parts[..|parts| - 1], sep) + [sep] + Last(parts)
  {
    if |parts| > 2 {
      JoinLast(parts[1..], sep);
      assert parts[1..][..|parts| - 2] == parts[..|parts| - 1][1..];
    }
  }

  /** The last piece of a split is the suffix of `s` after the last separator,
      or all of `s` when there is no separator. */
  lemma LastPieceIsSuffix(s: string, sep: char)
    ensures var last := Last(Split(s, sep));
            && Lacks(last, sep)
            && |last| <= |s|
            && s[|s| - |last|..] == last
            && (|last| == |s| || s[|s| - |last| - 1] == sep)
  {
    var parts := Split(s, sep);
    assert Lacks(parts[|parts| - 1], sep);
    if |parts| > 1 {
      JoinLast(parts, sep);
      var front := Join(parts[..|parts| - 1], sep);
      assert s == front + [sep] + Last(parts);
      assert s[|s| - |Last(parts)| - 1] == sep;
    }
  }

  /** The decimal numeral JavaScript prints for a non-negative integer. */
  function NatToDecimal(n: nat): (s: string)
    ensures |s| > 0 && forall i :: 0 <= i < |s| ==> '0' <= s[i] <= '9'
    ensures |s| > 1 ==> s[0] != '0'
  {
    if n < 10 then [Digit(n)] else NatToDecimal(n / 10) + [Digit(n % 10)]
  }

  function Digit(d: nat): char
    requires d < 10
  {
    "0123456789"[d]
  }

  /** `prefix` starts `s`. */
  predicate StartsWith(s: string, prefix: string)
  {
    |prefix| <= |s| && s[..|prefix|] == prefix
  }

  /** A text starts with whatever was put in front of it. */
  lemma StartsWithConcat(prefix: string, rest: string)
    ensures StartsWith(prefix + rest, prefix)
    ensures (prefix + rest)[|prefix|..] == rest
  {
    assert (prefix + rest)[..|prefix|] == prefix;
  }
}

=== FILE: summary.dfy ===
/** The login-event summary the handler builds from the first result row
    and the JSON document in its `@message` field, and the text it renders. */
module Summary {
  import opened Wrappers
  import opened Js
  import Fields
  import Strings

  /** The six values the notification shows, each already text. */
  datatype LoginSummary = LoginSummary(time: string, user: string, sourceIp: string, userArn: string, mfaUsed: string, mfaType: string)

  /** `getFieldValue`'s result as a JavaScript value: a string or `null`. */
  function FieldValue(v: Option<string>): Value
  {
    if v.Some? then Some(JStr(v.value)) else Some(JNull)
  }

  /** The six values the handler's reads find in a row and its parsed
      message, in template order, before the `|| "N/A"` default. */
  function Found(row: Fields.Row, doc: Json): seq<Value>
  {
    [ FieldValue(Fields.GetFieldValue(row, "@timestamp")),
      At(Some(doc), ["userIdentity", "type"]),
      At(Some(doc), ["sourceIPAddress"]),
      At(Some(doc), ["userIdentity", "arn"]),
      At(Some(doc), ["additionalEventData", "MFAUsed"]),
      At(Some(doc), ["additionalEventData", "MFAIdentifier"]) ]
  }

  /** Every truthy value among `found` converts to text. */
  predicate AllPrintable(found: seq<Value>)
  {
    forall i :: 0 <= i < |found| ==> Truthy(found[i]) ==> Printable(found[i].value)
  }

  /** `s` shows each found value, or "N/A" in place of a falsy one. */
  predicate Shows(found: seq<Value>, s: LoginSummary)
  {
    |found| == 6 && forall i :: 0 <= i < 6 ==> OrNotAvailable(found[i]) == Success(Values(s)[i])
  }

  /** Lines 49-56 on a truthy parsed message `doc`: the field reads in
      source order, giving the six values before the `|| "N/A"` default.
      `userIdentity` is read without `?.`, so the read of its `type` throws
      when it is missing or `null`; `additionalEventData` is read with `?.`,
      so its absence only leaves the MFA values `undefined`. */
  function Read(row: Fields.Row, doc: Json): (r: Result<seq<Value>, TypeError>)
    requires Truthy(Some(doc))
    ensures r.Failure? <==> Nullish(At(Some(doc), ["userIdentity"]))
    ensures r.Failure? ==> r.error == CannotRead("type", At(Some(doc), ["userIdentity"]) == Some(JNull))
    ensures r.Success? ==> r.value == Found(row, doc)
  {
    var message := Some(doc);
    var eventTime := FieldValue(Fields.GetFieldValue(row, "@timestamp"));
    var identity := Member(message, "userIdentity").value;
    ReadMatchesPath(message, "userIdentity");
    var userType :- Member(identity, "type");
    ReadMatchesPath(identity, "type");
    var sourceIp := Member(message, "sourceIPAddress").value;
    ReadMatchesPath(message, "sourceIPAddress");
    var userArn := Member(identity, "arn").value;
    ReadMatchesPath(identity, "arn");
    var additional := Member(message, "additionalEventData").value;
    ReadMatchesPath(message, "additionalEventData");
    var mfaUsed := OptionalMember(additional, "MFAUsed");
    var mfaId := OptionalMember(additional, "MFAIdentifier");
    Success([eventTime, userType, sourceIp, userArn, mfaUsed, mfaId])
  }

  /** Lines 59-68: the template converts the six defaulted values to text in
      order; a value that is an object with its own `toString` key throws. */
  function Convert(found: seq<Value>): (r: Result<LoginSummary, TypeError>)
    requires |found| == 6
    ensures r.Success? <==> AllPrintable(found)
    ensures r.Failure? ==> r.error == NoPrimitive
    ensures r.Success? ==> Shows(found, r.value)
  {
    var time :- OrNotAvailable(found[0]);
    var user :- OrNotAvailable(found[1]);
    var ip :- OrNotAvailable(found[2]);
    var arn :- OrNotAvailable(found[3]);
    var used :- OrNotAvailable(found[4]);
    var kind :- OrNotAvailable(found[5]);
    var s := LoginSummary(time, user, ip, arn, used, kind);
    assert Values(s) == [time, user, ip, arn, used, kind];
    Success(s)
  }

  /** Lines 49-68: the reads, then the template. */
  function Extract(row: Fields.Row, doc: Json): (r: Result<LoginSummary, TypeError>)
    requires Truthy(Some(doc))
    ensures r.Failure? <==> Nullish(At(Some(doc), ["userIdentity"])) || !AllPrintable(Found(row, doc))
    ensures Nullish(At(Some(doc), ["userIdentity"])) ==>
              r == Failure(CannotRead("type", At(Some(doc), ["userIdentity"]) == Some(JNull)))
    ensures !Nullish(At(Some(doc), ["userIdentity"])) && r.Failure? ==> r.error == NoPrimitive
    ensures r.Success? ==> Shows(Found(row, doc), r.value)
  {
    var found :- Read(row, doc);
    Convert(found)
  }

  /** A read that does not throw finds the value at the one-key path, and
      the path through it continues from there. */
  lemma ReadMatchesPath(v: Value, key: string)
    ensures !Nullish(v) ==> Member(v, key).value == At(v, [key])
    ensures forall k :: !Nullish(v) ==> At(v, [key, k]) == At(Member(v, key).value, [k])
    ensures forall k :: Nullish(v) ==> At(v, [key, k]) == None
  {
    forall k ensures At(v, [key, k]) == if v.Some? && v.value.JObj? && key in v.value.props then At(Some(v.value.props[key]), [k]) else None {
      assert [key, k][1..] == [k];
    }
  }

  /** The template's indentation, heading and labels. */
  const Indent: string := "            "
  const Heading: string := "AWS Console Sign In Event Details:"
  const Labels: seq<string> := ["Time: ", "User: ", "Source IP: ", "User ARN: ", "MFA Used: ", "MFA Type: "]

  /** The summary's values in the order the template shows them. */
  function Values(s: LoginSummary): seq<string>
  {
    [s.time, s.user, s.sourceIp, s.userArn, s.mfaUsed, s.mfaType]
  }

  /** The template's lines: a blank first line, the heading, an indented
      blank line, one labelled line per value, and the closing indentation. */
  function Lines(s: LoginSummary): (ls: seq<string>)
    ensures |ls| == 10 && ls[0] == "" && ls[1] == Indent + Heading && ls[2] == Indent && ls[9] == Indent
    ensures forall i :: 0 <= i < 6 ==> ls[i + 3] == Indent + Labels[i] + Values(s)[i]
  {
    ["", Indent + Heading, Indent]
    + seq(6, i requires 0 <= i < 6 => Indent + Labels[i] + Values(s)[i])
    + [Indent]
  }

  /** The notification text: the template's lines joined by line breaks.
      It starts with a line break, and when no value contains a line break
      its lines are exactly the template's lines. */
  function Render(s: LoginSummary): (text: string)
    ensures |text| > 0 && text[0] == '\n'
    ensures SingleLine(s) ==> Strings.Split(text, '\n') == Lines(s)
  {
    var ls := Lines(s);
    var text := Strings.Join(ls, '\n');
    assert text == ls[0] + ['\n'] + Strings.Join(ls[1..], '\n');
    if SingleLine(s) then
      LinesAreSingle(s);
      Strings.SplitJoin(ls, '\n');
      text
    else text
  }

  /** No value of the summary contains a line break. */
  predicate SingleLine(s: LoginSummary)
  {
    forall i :: 0 <= i < 6 ==> Strings.Lacks(Values(s)[i], '\n')
  }

  /** Reads a rendered notification back into its six values. */
  function ReadBack(text: string): Option<LoginSummary>
  {
    ReadLines(Strings.Split(text, '\n'))
  }

  /** Recognises the template's lines and takes the value after each label. */
  function ReadLines(ls: seq<string>): Option<LoginSummary>
  {
    if && |ls| == 10 && ls[0] == "" && ls[1] == Indent + Heading && ls[2] == Indent && ls[9] == Indent
       && (forall i :: 0 <= i < 6 ==> Strings.StartsWith(ls[i + 3], Indent + Labels[i]))
    then Some(LoginSummary(ValueOf(ls, 0), ValueOf(ls, 1), ValueOf(ls, 2), ValueOf(ls, 3), ValueOf(ls, 4), ValueOf(ls, 5)))
    else None
  }

  function ValueOf(ls: seq<string>, i: nat): string
    requires i < 6 && |ls| == 10 && Strings.StartsWith(ls[i + 3], Indent + Labels[i])
  {
    ls[i + 3][|Indent + Labels[i]|..]
  }

  /** Rendering loses nothing: the six labelled lines come in template
      order and each carries its value, so reading back returns the summary. */
  lemma RenderReadBack(s: LoginSummary)
    requires SingleLine(s)
    ensures ReadBack(Render(s)) == Some(s)
  {
    ReadLinesOfLines(s);
  }

  /** With single-line values, no template line contains a line break. */
  lemma LinesAreSingle(s: LoginSummary)
    requires SingleLine(s)
    ensures Strings.Unseparated(Lines(s), '\n') && |Lines(s)| >= 1
  {
    var ls := Lines(s);
    forall i | 0 <= i < |ls| ensures Strings.Lacks(ls[i], '\n') {
      if 3 <= i < 9 {
        assert ls[i] == Indent + Labels[i - 3] + Values(s)[i - 3];
        assert Strings.Lacks(Indent + Labels[i - 3], '\n');
      }
    }
  }

  /** The labelled lines give back the values in template order. */
  lemma ReadLinesOfLines(s: LoginSummary)
    ensures ReadLines(Lines(s)) == Some(s)
  {
    var ls := Lines(s);
    forall i | 0 <= i < 6 ensures Strings.StartsWith(ls[i + 3], Indent + Labels[i]) && ValueOf(ls, i) == Values(s)[i] {
      assert ls[i + 3] == (Indent + Labels[i]) + Values(s)[i];
    }
  }

  /** A message with every field present as a non-empty string shows those
      strings. */
  lemma FullDocumentFillsEveryField(row: Fields.Row, time: string, identity: map<string, Json>, rest: map<string, Json>, extra: map<string, Json>)
    requires Fields.GetFieldValue(row, "@timestamp") == Some(time) && time != ""
    requires "type" in identity && identity["type"].JStr? && identity["type"].s != ""
    requires "arn" in identity && identity["arn"].JStr? && identity["arn"].s != ""
    requires "MFAUsed" in extra && extra["MFAUsed"].JStr? && extra["MFAUsed"].s != ""
    requires "MFAIdentifier" in extra && extra["MFAIdentifier"].JStr? && extra["MFAIdentifier"].s != ""
    requires "sourceIPAddress" in rest && rest["sourceIPAddress"].JStr? && rest["sourceIPAddress"].s != ""
    ensures var doc := JObj(rest["userIdentity" := JObj(identity)]["additionalEventData" := JObj(extra)]);
            Extract(row, doc) == Success(LoginSummary(time, identity["type"].s, rest["sourceIPAddress"].s,
                                                      identity["arn"].s, extra["MFAUsed"].s, extra["MFAIdentifier"].s))
  {
    var doc := JObj(rest["userIdentity" := JObj(identity)]["additionalEventData" := JObj(extra)]);
    var s := LoginSummary(time, identity["type"].s, rest["sourceIPAddress"].s,
                          identity["arn"].s, extra["MFAUsed"].s, extra["MFAIdentifier"].s);
    assert At(Some(doc), ["userIdentity"]) == Some(JObj(identity));
    var found := Found(row, doc);
    assert found == [Some(JStr(time)), Some(identity["type"]), Some(rest["sourceIPAddress"]),
                     Some(identity["arn"]), Some(extra["MFAUsed"]), Some(extra["MFAIdentifier"])];
    assert AllPrintable(found);
    var r := Extract(row, doc);
    assert Shows(found, r.value);
    ShownValues(found, r.value, s);
    SameValues(r.value, s);
  }

  /** Found values that are non-empty strings are shown as themselves. */
  lemma ShownValues(found: seq<Value>, r: LoginSummary, s: LoginSummary)
    requires Shows(found, r)
    requires forall i :: 0 <= i < 6 ==> found[i] == Some(JStr(Values(s)[i])) && Values(s)[i] != ""
    ensures forall i :: 0 <= i < 6 ==> Values(r)[i] == Values(s)[i]
  {
    forall i | 0 <= i < 6 ensures Values(r)[i] == Values(s)[i] {
      assert OrNotAvailable(found[i]) == Success(Values(r)[i]);
    }
  }

  /** A summary is determined by its six values. */
  lemma SameValues(a: LoginSummary, b: LoginSummary)
    requires forall i :: 0 <= i < 6 ==> Values(a)[i] == Values(b)[i]
    ensures a == b
  {
    assert Values(a)[0] == Values(b)[0] && Values(a)[1] == Values(b)[1] && Values(a)[2] == Values(b)[2];
    assert Values(a)[3] == Values(b)[3] && Values(a)[4] == Values(b)[4] && Values(a)[5] == Values(b)[5];
  }

  /** A message without `additionalEventData` but with a `userIdentity`
      object never throws a read error, and shows "N/A" for both MFA fields
      whenever the template succeeds. */
  lemma MissingMfaDataIsNotAvailable(row: Fields.Row, props: map<string, Json>)
    requires "additionalEventData" !in props
    requires "userIdentity" in props && props["userIdentity"].JObj?
    ensures Extract(row, JObj(props)).Failure? ==> Extract(row, JObj(props)).error == NoPrimitive
    ensures Extract(row, JObj(props)).Success? ==> Extract(row, JObj(props)).value.mfaUsed == NotAvailable
    ensures Extract(row, JObj(props)).Success? ==> Extract(row, JObj(props)).value.mfaType == NotAvailable
  {
    var doc := JObj(props);
    assert At(Some(doc), ["userIdentity"]) == Some(props["userIdentity"]);
    var found := Found(row, doc);
    assert found[4] == None && found[5] == None;
    var r := Extract(row, doc);
    if r.Success? {
      assert OrNotAvailable(found[4]) == Success(Values(r.value)[4]);
      assert OrNotAvailable(found[5]) == Success(Values(r.value)[5]);
    }
  }

  /** A truthy message without `userIdentity` throws at the read of its
      `type`, the first line that dereferences it. */
  lemma MissingIdentityThrows(row: Fields.Row, doc: Json)
    requires Truthy(Some(doc))
    requires !(doc.JObj? && "userIdentity" in doc.props)
    ensures Extract(row, doc) == Failure(CannotRead("type", false))
    ensures TypeErrorMessage(Extract(row, doc).error) == "Cannot read properties of undefined (reading 'type')"
  {
    assert At(Some(doc), ["userIdentity"]) == None;
  }

  /** A found value that is an object with its own `toString` key makes the
      template throw, even though every read succeeded. */
  lemma UnprintableValueThrows(row: Fields.Row, doc: Json, i: nat)
    requires Truthy(Some(doc)) && !Nullish(At(Some(doc), ["userIdentity"]))
    requires i < 6 && Found(row, doc)[i].Some? && Found(row, doc)[i].value.JObj?
    requires "toString" in Found(row, doc)[i].value.props
    ensures Extract(row, doc) == Failure(NoPrimitive)
    ensures TypeErrorMessage(Extract(row, doc).error) == "Cannot convert object to primitive value"
  {
    assert !AllPrintable(Found(row, doc));
  }
}

=== FILE: wrappers.dfy ===
/** Failure-compatible wrappers shared by the whole model. */
module Wrappers {

  /** A value that may be missing. */
  datatype Option<+T> = None | Some(value: T)

  /** The outcome of a step that may throw: either a value or an error. */
  datatype Result<+T, +E> = Success(value: T) | Failure(error: E) {

    predicate IsFailure() {
      Failure?
    }

    function PropagateFailure<U>(): Result<U, E>
      requires Failure?
    {
      Failure(error)
    }

    function Extract(): T
      requires Success?
    {
      value
    }
  }
}
